=== FILE: README.md ===
# Toshiba IR air-conditioner accessory: state-to-command translator

This project is a Dafny model of the core of the Toshiba IR Homebridge accessory. The core is the part that
turns HomeKit heater-cooler writes into commands for the air conditioner. It has two components:

- **Command encoder** (`Encoder`, `send_message`). It maps the commanded power (Active), the target mode
  (TargetHeaterCoolerState) and the two stored thresholds to the wire body `{mode, fan, temp, power}`.
  It yields nothing when power or mode is not recognised. HEAT gives mode 3 with the heating threshold.
  COOL gives mode 1 with the cooling threshold. The fan is always `FAN_MIN` = 1. AUTO and unknown modes
  yield no command.
- **Appliance controller** (`Controller`, the `States` record and its get/set handlers). The snapshot is an
  immutable `State`. Each setter is a pure function from the old snapshot and the written value to a
  `Step`: the new snapshot plus the command it would send, if any. A write of the stored value is a no-op.
  A changing write updates the attribute and the attributes coupled to it, then encodes the new snapshot.

`Characteristics` holds the characteristic values. The host passes those values untyped, so `Power` and
`TargetMode` each have a case for "none of the named constants". `CurrentMode` is either the
CurrentHeaterCoolerState INACTIVE constant or an echo of a target-mode value. It needs both because the
mode handler copies the raw target value into it. `PowerName` and `ModeName` model the log formatter
`state_to_name`.

`Session` folds a sequence of host writes over the controller. Writes are serial, as the host issues
them. For every session, whatever values it writes, it proves two invariants:
- the current heater-cooler state mirrors the target mode;
- the current and display temperatures are coupled to the thresholds.

For sessions whose threshold writes stay within the host's advertised ranges (17..25 for cooling, 22..30
for heating), it proves that the thresholds stay in those ranges and that every command sent carries a
temperature in its mode's advertised range. It also bounds the number of commands, and proves concrete
scenarios.

The handlers behave in ways one might not expect:
- One might expect the threshold setters to clamp or reject values outside [17, 25] and [22, 30]. The
  handlers do neither. Only the host's `setProps` ranges keep values in range.
  `CoolingThresholdIsNotClamped` shows an out-of-range cooling threshold reaching the wire.
- One might expect every changing write to send a command. A changing write sends one only when the
  encoder yields one (`Session.Apply`, `Controller.ActiveSet`).

A changing write of the threshold of the mode that is not selected re-sends the command the previous
snapshot encoded, if it encoded one (`InactiveThresholdResendsSameCommand`).

## Model

| member | source | states |
|---|---|---|
| Characteristics.PowerName | src/platformAccessory.ts:107-108 | An Active value has a log name exactly when it is INACTIVE or ACTIVE. |
| Characteristics.ModeName | src/platformAccessory.ts:104-106 | A target-mode value has a log name exactly when it is HEAT, COOL or AUTO. |
| Characteristics.NamesIdentifyValues | src/platformAccessory.ts:103-109 | A defined log name determines the value it names, for both characteristics. |
| Encoder.PowerField | src/platformAccessory.ts:114-120 | The `power` field is defined exactly for INACTIVE and ACTIVE, and is true exactly for ACTIVE. |
| Encoder.ModeField | src/platformAccessory.ts:121-128 | The `mode`/`temp` fields are defined exactly for HEAT and COOL: HEAT gives code 3 with the heating threshold, COOL gives code 1 with the cooling threshold. |
| Encoder.Encode | src/platformAccessory.ts:111-131 | A command is produced iff power is INACTIVE/ACTIVE and mode is HEAT/COOL. AUTO or an unknown mode never yields one. Fan is 1. Power is true iff ACTIVE. HEAT gives mode 3 with the heating threshold. COOL gives mode 1 with the cooling threshold. |
| Encoder.EncodeDecode | src/platformAccessory.ts:112-129 | Every emitted command is well formed (mode 1 or 3, fan 1). Decoding its fields gives back the power, the target mode and that mode's threshold. |
| Encoder.DecodeEncode | src/platformAccessory.ts:112-131 | Every well-formed command is the encoding of the snapshot its fields decode to, so the encoder is onto the well-formed commands. |
| Controller.Dispatch | src/platformAccessory.ts:155-215 | The command each changing handler sends is defined exactly when the snapshot's power is known and its mode is HEAT/COOL. Its power is true iff the snapshot is ACTIVE, and it carries the selected mode's threshold. |
| Controller.ActiveGet | src/platformAccessory.ts:143-146 | Returns the stored Active value, with no effect. Writing the value read straight back is a no-op. |
| Controller.CurrentHeaterCoolerStateGet | src/platformAccessory.ts:161-164 | Returns the stored current heater-cooler state, with no effect. On a coupled snapshot that is the echoed target, or INACTIVE while the target is AUTO. |
| Controller.TargetHeaterCoolerStateGet | src/platformAccessory.ts:167-170 | Returns the stored target mode, with no effect. Writing the value read straight back is a no-op. |
| Controller.CoolingThresholdGet | src/platformAccessory.ts:187-190 | Returns the stored cooling threshold, with no effect. Writing the value read straight back is a no-op. |
| Controller.HeatingThresholdGet | src/platformAccessory.ts:204-207 | Returns the stored heating threshold, with no effect. Writing the value read straight back is a no-op. |
| Controller.CurrentTemperatureGet | src/platformAccessory.ts:222-225 | Returns the stored current temperature, with no effect. No sensor feeds it: on a coupled snapshot it is the default 0 or one of the two thresholds. |
| Controller.ActiveSet | src/platformAccessory.ts:148-158 | Writing the stored power leaves the snapshot and sends nothing. Otherwise Active becomes the value and no other field changes. A command is sent iff the value is a known power and the stored mode is HEAT/COOL, and it encodes the new power with the stored mode. |
| Controller.TargetHeaterCoolerStateSet | src/platformAccessory.ts:172-184 | Writing the stored mode is a no-op. Otherwise both target and current heater-cooler state take the value, and power, temperatures and thresholds stay. A command is sent iff power is known and the new mode is HEAT/COOL. |
| Controller.CoolingThresholdSet | src/platformAccessory.ts:192-201 | Writing the stored cooling threshold is a no-op. Otherwise the threshold, CurrentTemperature and Temperature all become the value, and power, modes and the heating threshold stay. A command is sent iff power is known and the mode is HEAT/COOL, encoding the new cooling threshold. The value is not clamped. |
| Controller.HeatingThresholdSet | src/platformAccessory.ts:209-218 | Writing the stored heating threshold is a no-op. Otherwise the threshold, CurrentTemperature and Temperature all become the value, and power, modes and the cooling threshold stay. A command is sent iff power is known and the mode is HEAT/COOL, encoding the new heating threshold. The value is not clamped. |
| Controller.InactiveThresholdResendsSameCommand | src/platformAccessory.ts:192-215 | Changing the cooling threshold in HEAT mode, or the heating threshold in COOL mode, re-sends the command the previous snapshot encoded, if it encoded one. |
| Session.Apply | src/platformAccessory.ts:148-218 | For any write, the snapshot changes iff the value differs from the stored one. An unchanged write sends nothing. A changing write sends exactly the encoding of the new snapshot. |
| Session.Run | src/platformAccessory.ts:148-218 | A session of serial writes sends at most one command per write. |
| Session.SetThenGet | src/platformAccessory.ts:143-225 | After a write the matching getter returns the written value. After a changing mode write, the current heater-cooler state getter returns that mode. After a changing threshold write, the current-temperature getter returns that threshold. |
| Session.WriteTwiceIsNoOp | src/platformAccessory.ts:149-215 | Repeating any write right away leaves the snapshot unchanged and sends nothing. |
| Session.RepeatedWriteSendsOnce | src/platformAccessory.ts:149-215 | Any number (at least one) of identical writes ends in the snapshot of one write and sends what one write sends. |
| Session.RepeatedStoredWriteIsNoOp | src/platformAccessory.ts:149-215 | Any number of writes of an already stored value changes nothing and sends nothing. |
| Session.AtMostOneCommandPerChange | src/platformAccessory.ts:149-215 | Over any session, the number of commands sent is at most the number of writes that change the snapshot. |
| Session.InitialSnapshot | src/platformAccessory.ts:17-25 | The initial snapshot (INACTIVE, AUTO, current INACTIVE, 0, 22, 30, 20) is coupled, has thresholds within the host ranges, and encodes to no command. |
| Session.ApplyKeepsCoupled | src/platformAccessory.ts:148-218 | Any write, whatever its value, keeps the snapshot coupled. The current heater-cooler state stays INACTIVE only while the target is AUTO and otherwise echoes the target. Current and display temperatures stay at their defaults, or both equal one of the thresholds. |
| Session.RunKeepsCoupled | src/platformAccessory.ts:148-218 | Every session, whatever it writes, keeps a coupled snapshot coupled. |
| Session.ReachableCoupled | src/platformAccessory.ts:17-25 | Every snapshot reachable from the initial one, by any writes, is coupled. |
| Session.InactiveIffNeverLeftAuto | src/platformAccessory.ts:172-180 | Starting from a snapshot that mirrors its target, a session ends with the current heater-cooler state INACTIVE exactly when it started INACTIVE and no write of the session selected a target mode other than AUTO. |
| Session.ApplyKeepsHostRange | src/platformAccessory.ts:192-218 | A write within the host's advertised threshold ranges (lines 64 and 69) keeps both thresholds in range. Any command it sends has fan 1, and either mode 1 with temperature in 17..25 or mode 3 with temperature in 22..30. |
| Session.RunKeepsHostRange | src/platformAccessory.ts:148-218 | The same holds for every session of writes within the host's advertised ranges, for the final snapshot and every command sent. |
| Session.ReachableHostRange | src/platformAccessory.ts:17-25 | From the initial snapshot, writes within the host's advertised ranges keep the thresholds in range, and every command sent is within those ranges. |
| Session.PowerOnFromInitialSendsNothing | src/platformAccessory.ts:148-155 | From the initial snapshot, switching to ACTIVE sends no command, because the mode is AUTO. |
| Session.PowerOnThenHeat | src/platformAccessory.ts:172-180 | From the initial snapshot, ACTIVE and then HEAT sends exactly `{mode 3, fan 1, temp 30, power true}`. |
| Session.CoolIsEchoed | src/platformAccessory.ts:161-179 | After selecting COOL, the current heater-cooler state reads COOL. |
| Session.CoolingThresholdIsCurrentTemperature | src/platformAccessory.ts:192-224 | After writing a cooling threshold of 19, the current temperature reads 19. |
| Session.EncodeCoolExample | src/platformAccessory.ts:111-131 | ACTIVE, COOL and cooling threshold 18 encode to `{mode 1, fan 1, temp 18, power true}`. |
| Session.CoolingThresholdIsNotClamped | src/platformAccessory.ts:192-198 | A cooling threshold of 40 is stored and sent unchanged. |

## Left out

- Accessory registration, characteristic wiring and accessory information (src/platformAccessory.ts:33-72) are host-library glue. The threshold ranges set there (lines 64 and 69) appear only as the hypothesis `HostValid` of the host-range lemmas. The setters themselves accept any value, as the code does. What temperatures the air conditioner itself accepts is not known from the source and is not modelled.
- The HTTP `request.put` to the fixed device URL (src/platformAccessory.ts:133-137) is fire-and-forget network I/O. Only the command it would carry is modelled, as `Option<Command>`.
- Logging (src/platformAccessory.ts:132, 150-153, 174-177, 194, 211) is not modelled. `state_to_name` appears only as `PowerName`/`ModeName`.
- The empty `setInterval` stub and the unused `motionDetected` flag (src/platformAccessory.ts:95-98) do nothing.
- Host callbacks are dropped (src/platformAccessory.ts:145, 157, 163, 169, 183, 189, 200, 206, 217, 224). Getters are pure reads of the snapshot. Setters return the new snapshot and the command.
- Temperatures are integers. The host's step of 1 keeps them whole. Non-integer and NaN JavaScript numbers are not modelled.
- The host library's numeric codes for the characteristic values are not modelled. Values are the named cases, plus an `Unknown…(code)` case for anything else. So this model does not say how a host reads the echoed target value in CurrentHeaterCoolerState. In the host library, the two characteristics number their constants differently.
- The device mode codes DRY, FAN and AUTO and the fan codes other than FAN_MIN are declared (line 112) but never emitted, so the model does not declare them.
- Concurrent, unserialised handler calls are not modelled. `Session` assumes the host calls handlers one at a time.

=== FILE: characteristics.dfy ===
/**
  The values the host integration layer writes to and reads from the heater-cooler
  service's characteristics. The host hands these values over untyped, so each
  enumeration carries one extra case for a value that is none of the named
  constants; distinct codes stand for distinct such values.
 */
module Characteristics {
  import opened Wrappers

  /** A value of the Active characteristic. */
  datatype Power = Inactive | Active | UnknownPower(code: int)

  /** A value of the TargetHeaterCoolerState characteristic. */
  datatype TargetMode = Auto | Heat | Cool | UnknownMode(code: int)

  /**
    A value of the CurrentHeaterCoolerState characteristic. It starts as that
    characteristic's own INACTIVE constant; every accepted mode change then
    overwrites it with the raw target-mode value, so afterwards it echoes a
    TargetMode.
   */
  datatype CurrentMode = CurrentInactive | Echo(mode: TargetMode)

  /** One of the two power constants the encoder understands. */
  predicate IsKnownPower(p: Power) {
    p.Inactive? || p.Active?
  }

  /** One of the two target modes the encoder can put on the wire. */
  predicate IsWireMode(m: TargetMode) {
    m.Heat? || m.Cool?
  }

  /** Log name of an Active value: defined only for the two named constants. */
  function PowerName(p: Power): (r: Option<string>)
    ensures r.Some? <==> IsKnownPower(p)
    ensures p.Active? ==> r == Some("ACTIVE")
    ensures p.Inactive? ==> r == Some("INACTIVE")
  {
    match p
    case Inactive => Some("INACTIVE")
    case Active => Some("ACTIVE")
    case UnknownPower(_) => None
  }

  /** Log name of a TargetHeaterCoolerState value: defined only for the three named constants. */
  function ModeName(m: TargetMode): (r: Option<string>)
    ensures r.Some? <==> !m.UnknownMode?
    ensures m.Heat? ==> r == Some("HEAT")
    ensures m.Cool? ==> r == Some("COOL")
    ensures m.Auto? ==> r == Some("AUTO")
  {
    match m
    case Heat => Some("HEAT")
    case Cool => Some("COOL")
    case Auto => Some("AUTO")
    case UnknownMode(_) => None
  }

  /** A logged name identifies the value it was produced from. */
  lemma NamesIdentifyValues(p: Power, q: Power, m: TargetMode, n: TargetMode)
    ensures PowerName(p).Some? && PowerName(p) == PowerName(q) ==> p == q
    ensures ModeName(m).Some? && ModeName(m) == ModeName(n) ==> m == n
  {
  }
}

=== FILE: controller.dfy ===
/**
  The appliance controller: the commanded-state snapshot of one air conditioner
  and the get/set handlers the host calls. Each setter compares the incoming
  value with the stored one; on a change it updates the attribute and the
  attributes coupled to it and encodes the new snapshot, on an equal value it
  does nothing. A setter's observable effect is the new snapshot plus the
  command it would put on the wire, if any.
 */
module Controller {
  import opened Wrappers
  import opened Characteristics
  import opened Encoder

  /** The snapshot of commanded values (the `States` record). */
  datatype State = State(
    active: Power,
    current: CurrentMode,
    target: TargetMode,
    currentTemperature: int,
    cooling: int,
    heating: int,
    temperature: int
  )

  /** The snapshot a freshly constructed accessory starts from. */
  const Initial: State := State(Inactive, CurrentInactive, Auto, 0, 22, 30, 20)

  /** What a setter leaves behind: the new snapshot and the command it sent, if any. */
  datatype Step = Step(state: State, sent: Option<Command>)

  /**
    The command for a snapshot: at every call site the handlers pass the
    snapshot's own power and target mode, and the encoder reads the snapshot's
    thresholds, so the command uses the selected mode's threshold.
   */
  function Dispatch(s: State): (r: Option<Command>)
    ensures r.Some? <==> IsKnownPower(s.active) && IsWireMode(s.target)
    ensures r.Some? ==> (r.value.power <==> s.active == Active)
    ensures r.Some? ==> r.value.temp == (if s.target == Heat then s.heating else s.cooling)
  {
    Encode(s.active, s.target, s.cooling, s.heating)
  }

  /**
    The current heater-cooler state echoes the target, or is the INACTIVE
    constant while the target is AUTO.
   */
  predicate MirrorsTarget(s: State) {
    s.current == Echo(s.target) || (s.current == CurrentInactive && s.target == Auto)
  }

  /**
    The current and display temperatures are either at their defaults (0 and 20)
    or equal to each other and to one of the two thresholds.
   */
  predicate TemperatureCoupled(s: State) {
    || (s.currentTemperature == 0 && s.temperature == 20)
    || (s.currentTemperature == s.temperature
        && (s.currentTemperature == s.cooling || s.currentTemperature == s.heating))
  }

  /** Reads Active. Writing the value read straight back is a no-op. */
  function ActiveGet(s: State): (r: Power)
    ensures ActiveSet(s, r) == Step(s, None)
  {
    s.active
  }

  /**
    Reads CurrentHeaterCoolerState. On a snapshot that mirrors its target this
    is the echoed target, or INACTIVE while the target is AUTO.
   */
  function CurrentHeaterCoolerStateGet(s: State): (r: CurrentMode)
    ensures MirrorsTarget(s) ==> r == Echo(s.target) || (r == CurrentInactive && s.target == Auto)
  {
    s.current
  }

  /** Reads TargetHeaterCoolerState. Writing the value read straight back is a no-op. */
  function TargetHeaterCoolerStateGet(s: State): (r: TargetMode)
    ensures TargetHeaterCoolerStateSet(s, r) == Step(s, None)
  {
    s.target
  }

  /** Reads CoolingThresholdTemperature. Writing the value read straight back is a no-op. */
  function CoolingThresholdGet(s: State): (r: int)
    ensures CoolingThresholdSet(s, r) == Step(s, None)
  {
    s.cooling
  }

  /** Reads HeatingThresholdTemperature. Writing the value read straight back is a no-op. */
  function HeatingThresholdGet(s: State): (r: int)
    ensures HeatingThresholdSet(s, r) == Step(s, None)
  {
    s.heating
  }

  /**
    Reads CurrentTemperature. No sensor feeds it: on a coupled snapshot it is
    the default 0 or one of the two thresholds.
   */
  function CurrentTemperatureGet(s: State): (r: int)
    ensures TemperatureCoupled(s) ==> r == 0 || r == s.cooling || r == s.heating
  {
    s.currentTemperature
  }

  /**
    Writes the Active characteristic. A new value replaces the power and nothing
    else; the command then carries the new power with the unchanged target mode.
   */
  function ActiveSet(s: State, value: Power): (r: Step)
    ensures value == s.active ==> r == Step(s, None)
    ensures r.state.active == value
    ensures r.state.current == s.current && r.state.target == s.target
    ensures r.state.currentTemperature == s.currentTemperature && r.state.temperature == s.temperature
    ensures r.state.cooling == s.cooling && r.state.heating == s.heating
    ensures r.sent.Some? <==> value != s.active && IsKnownPower(value) && IsWireMode(s.target)
    ensures r.sent.Some? ==> r.sent == Encode(value, s.target, s.cooling, s.heating)
  {
    if value != s.active then
      var s' := s.(active := value);
      Step(s', Dispatch(s'))
    else
      Step(s, None)
  }

  /**
    Writes the TargetHeaterCoolerState characteristic. A new value replaces both
    the target and the current heater-cooler state and nothing else; the command
    carries the stored power with the new mode.
   */
  function TargetHeaterCoolerStateSet(s: State, value: TargetMode): (r: Step)
    ensures value == s.target ==> r == Step(s, None)
    ensures r.state.target == value
    ensures value != s.target ==> r.state.current == Echo(value)
    ensures value == s.target ==> r.state.current == s.current
    ensures r.state.active == s.active
    ensures r.state.currentTemperature == s.currentTemperature && r.state.temperature == s.temperature
    ensures r.state.cooling == s.cooling && r.state.heating == s.heating
    ensures r.sent.Some? <==> value != s.target && IsKnownPower(s.active) && IsWireMode(value)
    ensures r.sent.Some? ==> r.sent == Encode(s.active, value, s.cooling, s.heating)
  {
    if value != s.target then
      var s' := s.(target := value, current := Echo(value));
      Step(s', Dispatch(s'))
    else
      Step(s, None)
  }

  /**
    Writes the CoolingThresholdTemperature characteristic. A new value becomes
    the cooling threshold, the current temperature and the display temperature;
    power, modes and the heating threshold stay. No clamping takes place.
   */
  function CoolingThresholdSet(s: State, value: int): (r: Step)
    ensures value == s.cooling ==> r == Step(s, None)
    ensures r.state.cooling == value
    ensures value != s.cooling ==> r.state.currentTemperature == value && r.state.temperature == value
    ensures value == s.cooling ==> r.state.currentTemperature == s.currentTemperature && r.state.temperature == s.temperature
    ensures r.state.active == s.active && r.state.current == s.current && r.state.target == s.target
    ensures r.state.heating == s.heating
    ensures r.sent.Some? <==> value != s.cooling && IsKnownPower(s.active) && IsWireMode(s.target)
    ensures r.sent.Some? ==> r.sent == Encode(s.active, s.target, value, s.heating)
  {
    if value != s.cooling then
      var s' := s.(cooling := value, currentTemperature := value, temperature := value);
      Step(s', Dispatch(s'))
    else
      Step(s, None)
  }

  /**
    Writes the HeatingThresholdTemperature characteristic. A new value becomes
    the heating threshold, the current temperature and the display temperature;
    power, modes and the cooling threshold stay. No clamping takes place.
   */
  function HeatingThresholdSet(s: State, value: int): (r: Step)
    ensures value == s.heating ==> r == Step(s, None)
    ensures r.state.heating == value
    ensures value != s.heating ==> r.state.currentTemperature == value && r.state.temperature == value
    ensures value == s.heating ==> r.state.currentTemperature == s.currentTemperature && r.state.temperature == s.temperature
    ensures r.state.active == s.active && r.state.current == s.current && r.state.target == s.target
    ensures r.state.cooling == s.cooling
    ensures r.sent.Some? <==> value != s.heating && IsKnownPower(s.active) && IsWireMode(s.target)
    ensures r.sent.Some? ==> r.sent == Encode(s.active, s.target, s.cooling, value)
  {
    if value != s.heating then
      var s' := s.(heating := value, currentTemperature := value, temperature := value);
      Step(s', Dispatch(s'))
    else
      Step(s, None)
  }

  /**
    A changing write of the threshold that is not the selected mode's still
    sends: it re-sends the command the previous snapshot encoded, if it encoded one.
   */
  lemma InactiveThresholdResendsSameCommand(s: State, value: int)
    ensures s.target == Heat && value != s.cooling ==> CoolingThresholdSet(s, value).sent == Dispatch(s)
    ensures s.target == Cool && value != s.heating ==> HeatingThresholdSet(s, value).sent == Dispatch(s)
  {
  }
}

=== FILE: encoder.dfy ===
/**
  The command encoder: maps the commanded power and target mode, together with
  the two stored thresholds, to the JSON body `{mode, fan, temp, power}` the air
  conditioner accepts, or to nothing when a mandatory field would be missing.
 */
module Encoder {
  import opened Wrappers
  import opened Characteristics

  // The device codes the encoder emits (src/platformAccessory.ts:112).
  const COOL_CODE: int := 1
  const HEAT_CODE: int := 3
  const FAN_MIN: int := 1

  /** The wire command; `power` is the protocol's ON (true) / OFF (false). */
  datatype Command = Command(mode: int, fan: int, temp: int, power: bool)

  /** The device mode code and temperature chosen for a target mode. */
  datatype ModeSetting = ModeSetting(code: int, temp: int)

  /** The `power` field: set for the two power constants, left undefined otherwise. */
  function PowerField(active: Power): (r: Option<bool>)
    ensures r.Some? <==> IsKnownPower(active)
    ensures r == Some(true) <==> active == Active
  {
    if active == Inactive then Some(false)
    else if active == Active then Some(true)
    else None
  }

  /** The `mode` and `temp` fields: set for HEAT and COOL, left undefined otherwise. */
  function ModeField(target: TargetMode, cooling: int, heating: int): (r: Option<ModeSetting>)
    ensures r.Some? <==> IsWireMode(target)
    ensures r == Some(ModeSetting(HEAT_CODE, heating)) <==> target == Heat
    ensures r == Some(ModeSetting(COOL_CODE, cooling)) <==> target == Cool
  {
    if target == Heat then Some(ModeSetting(HEAT_CODE, heating))
    else if target == Cool then Some(ModeSetting(COOL_CODE, cooling))
    else None
  }

  /**
    Encodes a snapshot. A command is produced exactly when both power and mode
    are recognised, so a partial payload is never produced; by the first
    clause AUTO and unknown modes produce nothing whatever the power.
   */
  function Encode(active: Power, target: TargetMode, cooling: int, heating: int): (r: Option<Command>)
    ensures r.Some? <==> IsKnownPower(active) && IsWireMode(target)
    ensures r.Some? ==> r.value.fan == FAN_MIN
    ensures r.Some? ==> (r.value.power <==> active == Active)
    ensures r.Some? && target == Heat ==> r.value.mode == HEAT_CODE && r.value.temp == heating
    ensures r.Some? && target == Cool ==> r.value.mode == COOL_CODE && r.value.temp == cooling
  {
    var power := PowerField(active);
    var setting := ModeField(target, cooling, heating);
    var fan := FAN_MIN;
    if power.Some? && setting.Some? then
      Some(Command(setting.value.code, fan, setting.value.temp, power.value))
    else
      None
  }

  /** A command of the shape the encoder can emit: mode COOL or HEAT, minimum fan. */
  predicate WellFormed(c: Command) {
    (c.mode == COOL_CODE || c.mode == HEAT_CODE) && c.fan == FAN_MIN
  }

  /** The power value a wire `power` field stands for. */
  function DecodePower(on: bool): (p: Power)
    ensures IsKnownPower(p)
  {
    if on then Active else Inactive
  }

  /** The target mode a wire `mode` code stands for, if the encoder can emit it. */
  function DecodeMode(code: int): (m: Option<TargetMode>)
    ensures m.Some? <==> code == COOL_CODE || code == HEAT_CODE
    ensures m.Some? ==> IsWireMode(m.value)
  {
    if code == HEAT_CODE then Some(Heat)
    else if code == COOL_CODE then Some(Cool)
    else None
  }

  /**
    Round trip: every command the encoder emits is well formed, and its fields
    give back the power, the target mode and the threshold of that mode.
   */
  lemma EncodeDecode(active: Power, target: TargetMode, cooling: int, heating: int)
    requires Encode(active, target, cooling, heating).Some?
    ensures var c := Encode(active, target, cooling, heating).value;
      && WellFormed(c)
      && DecodePower(c.power) == active
      && DecodeMode(c.mode) == Some(target)
      && c.temp == (if target == Heat then heating else cooling)
  {
  }

  /** Conversely, every well-formed command is the encoding of the snapshot its fields decode to. */
  lemma DecodeEncode(c: Command)
    requires WellFormed(c)
    ensures DecodeMode(c.mode).Some?
    ensures Encode(DecodePower(c.power), DecodeMode(c.mode).value, c.temp, c.temp) == Some(c)
  {
  }
}

=== FILE: session.dfy ===
/**
  A session: the host invokes the setters one at a time, in order, on one
  accessory. This module folds a sequence of writes over the controller and
  states what holds of every snapshot and every command along the way.
 */
module Session {
  import opened Wrappers
  import opened Characteristics
  import opened Encoder
  import opened Controller

  /** One characteristic write by the host. */
  datatype Request =
    | SetActive(power: Power)
    | SetTarget(mode: TargetMode)
    | SetCooling(cooling: int)
    | SetHeating(heating: int)

  /** The write carries the value the snapshot already stores. */
  predicate WritesStoredValue(s: State, req: Request) {
    match req
    case SetActive(p) => p == ActiveGet(s)
    case SetTarget(m) => m == TargetHeaterCoolerStateGet(s)
    case SetCooling(t) => t == CoolingThresholdGet(s)
    case SetHeating(t) => t == HeatingThresholdGet(s)
  }

  /**
    Runs the handler for one write. The snapshot changes exactly when the
    written value differs from the stored one; a command is only ever sent on
    such a change, and every change encodes the new snapshot exactly once.
   */
  function Apply(s: State, req: Request): (r: Step)
    ensures r.state == s <==> WritesStoredValue(s, req)
    ensures WritesStoredValue(s, req) ==> r.sent == None
    ensures !WritesStoredValue(s, req) ==> r.sent == Dispatch(r.state)
  {
    match req
    case SetActive(p) => ActiveSet(s, p)
    case SetTarget(m) => TargetHeaterCoolerStateSet(s, m)
    case SetCooling(t) => CoolingThresholdSet(s, t)
    case SetHeating(t) => HeatingThresholdSet(s, t)
  }

  /** The final snapshot of a session and the commands it sent, in order. */
  datatype Trace = Trace(final: State, sent: seq<Command>)

  /** Applies the writes in order, collecting the commands sent. */
  function Run(s: State, reqs: seq<Request>): (r: Trace)
    ensures |r.sent| <= |reqs|
    decreases |reqs|
  {
    if |reqs| == 0 then Trace(s, [])
    else
      var step := Apply(s, reqs[0]);
      var rest := Run(step.state, reqs[1..]);
      Trace(rest.final, step.sent.ToSeq() + rest.sent)
  }

  /** How many writes of a session actually change the snapshot. */
  function ChangeCount(s: State, reqs: seq<Request>): nat
    decreases |reqs|
  {
    if |reqs| == 0 then 0
    else
      var step := Apply(s, reqs[0]);
      (if WritesStoredValue(s, reqs[0]) then 0 else 1) + ChangeCount(step.state, reqs[1..])
  }

  /**
    What every reachable snapshot satisfies, whatever values the host writes:
    the current heater-cooler state mirrors the target and the current and
    display temperatures are coupled to the thresholds.
   */
  predicate Coupled(s: State) {
    MirrorsTarget(s) && TemperatureCoupled(s)
  }

  /** The threshold ranges the host advertises for the two characteristics. */
  predicate ThresholdsInHostRange(s: State) {
    17 <= s.cooling <= 25 && 22 <= s.heating <= 30
  }

  /** A write the host lets through: thresholds within the advertised ranges. */
  predicate HostValid(req: Request) {
    match req
    case SetCooling(t) => 17 <= t <= 25
    case SetHeating(t) => 22 <= t <= 30
    case _ => true
  }

  /**
    A command within the host's advertised threshold ranges: well formed, with
    the temperature in the range advertised for its mode's threshold.
   */
  predicate InHostRange(c: Command) {
    && WellFormed(c)
    && (c.mode == COOL_CODE ==> 17 <= c.temp <= 25)
    && (c.mode == HEAT_CODE ==> 22 <= c.temp <= 30)
  }

  /** The initial snapshot is coupled, within the host ranges, and encodes to no command. */
  lemma InitialSnapshot()
    ensures Coupled(Initial)
    ensures ThresholdsInHostRange(Initial)
    ensures Dispatch(Initial) == None
  {
  }

  /** Every write, in range or not, keeps a snapshot coupled. */
  lemma ApplyKeepsCoupled(s: State, req: Request)
    requires Coupled(s)
    ensures Coupled(Apply(s, req).state)
  {
  }

  /** Every session, whatever it writes, keeps a snapshot coupled. */
  lemma {:induction false} RunKeepsCoupled(s: State, reqs: seq<Request>)
    requires Coupled(s)
    ensures Coupled(Run(s, reqs).final)
    decreases |reqs|
  {
    if |reqs| > 0 {
      ApplyKeepsCoupled(s, reqs[0]);
      RunKeepsCoupled(Apply(s, reqs[0]).state, reqs[1..]);
    }
  }

  /** Every snapshot reachable from the initial one is coupled. */
  lemma ReachableCoupled(reqs: seq<Request>)
    ensures Coupled(Run(Initial, reqs).final)
  {
    InitialSnapshot();
    RunKeepsCoupled(Initial, reqs);
  }

  /**
    The current heater-cooler state ends a session as the INACTIVE constant
    exactly when it started as INACTIVE and no write of the session selected a
    target mode other than AUTO.
   */
  lemma {:induction false} InactiveIffNeverLeftAuto(s: State, reqs: seq<Request>)
    requires MirrorsTarget(s)
    ensures Run(s, reqs).final.current == CurrentInactive <==>
      s.current == CurrentInactive && forall i :: 0 <= i < |reqs| && reqs[i].SetTarget? ==> reqs[i].mode == Auto
    decreases |reqs|
  {
    if |reqs| > 0 {
      var s1 := Apply(s, reqs[0]).state;
      assert MirrorsTarget(s1);
      InactiveIffNeverLeftAuto(s1, reqs[1..]);
      assert forall i :: 1 <= i < |reqs| ==> reqs[i] == reqs[1..][i - 1];
    }
  }

  /** A write within the host ranges keeps the thresholds in range and sends only commands within them. */
  lemma ApplyKeepsHostRange(s: State, req: Request)
    requires ThresholdsInHostRange(s) && HostValid(req)
    ensures ThresholdsInHostRange(Apply(s, req).state)
    ensures Apply(s, req).sent.Some? ==> InHostRange(Apply(s, req).sent.value)
  {
  }

  /** A session of writes within the host ranges keeps the thresholds in range and sends only commands within them. */
  lemma {:induction false} RunKeepsHostRange(s: State, reqs: seq<Request>)
    requires ThresholdsInHostRange(s)
    requires forall i :: 0 <= i < |reqs| ==> HostValid(reqs[i])
    ensures ThresholdsInHostRange(Run(s, reqs).final)
    ensures forall i :: 0 <= i < |Run(s, reqs).sent| ==> InHostRange(Run(s, reqs).sent[i])
    decreases |reqs|
  {
    if |reqs| > 0 {
      var step := Apply(s, reqs[0]);
      ApplyKeepsHostRange(s, reqs[0]);
      RunKeepsHostRange(step.state, reqs[1..]);
      var rest := Run(step.state, reqs[1..]);
      assert Run(s, reqs).sent == step.sent.ToSeq() + rest.sent;
    }
  }

  /**
    From the initial snapshot, writes within the host ranges keep the thresholds
    in range and every command sent on the way is within them.
   */
  lemma ReachableHostRange(reqs: seq<Request>)
    requires forall i :: 0 <= i < |reqs| ==> HostValid(reqs[i])
    ensures ThresholdsInHostRange(Run(Initial, reqs).final)
    ensures forall i :: 0 <= i < |Run(Initial, reqs).sent| ==> InHostRange(Run(Initial, reqs).sent[i])
  {
    InitialSnapshot();
    RunKeepsHostRange(Initial, reqs);
  }

  /** At most one command is sent per write that actually changes the snapshot. */
  lemma {:induction false} AtMostOneCommandPerChange(s: State, reqs: seq<Request>)
    ensures |Run(s, reqs).sent| <= ChangeCount(s, reqs)
    decreases |reqs|
  {
    if |reqs| > 0 {
      var step := Apply(s, reqs[0]);
      AtMostOneCommandPerChange(step.state, reqs[1..]);
    }
  }

  /**
    After a write the matching getter reads the written value back. A changing
    threshold write is also what the current temperature reads, and a changing
    mode write is what the current heater-cooler state reads.
   */
  lemma SetThenGet(s: State, req: Request)
    ensures var s1 := Apply(s, req).state;
      match req
      case SetActive(p) => ActiveGet(s1) == p
      case SetTarget(m) =>
        && TargetHeaterCoolerStateGet(s1) == m
        && (m != s.target ==> CurrentHeaterCoolerStateGet(s1) == Echo(m))
      case SetCooling(t) =>
        && CoolingThresholdGet(s1) == t
        && (t != s.cooling ==> CurrentTemperatureGet(s1) == t)
      case SetHeating(t) =>
        && HeatingThresholdGet(s1) == t
        && (t != s.heating ==> CurrentTemperatureGet(s1) == t)
  {
  }

  /** Writing a value a second time is a no-op: the snapshot stays and nothing is sent. */
  lemma WriteTwiceIsNoOp(s: State, req: Request)
    ensures var s1 := Apply(s, req).state; Apply(s1, req) == Step(s1, None)
  {
  }

  /** However often the host repeats one write, the snapshot is that of one write and at most one command is sent. */
  lemma RepeatedWriteSendsOnce(s: State, req: Request, n: nat)
    requires n >= 1
    ensures Run(s, seq(n, _ => req)).final == Apply(s, req).state
    ensures Run(s, seq(n, _ => req)).sent == Apply(s, req).sent.ToSeq()
  {
    var reqs := seq(n, _ => req);
    var step := Apply(s, req);
    assert reqs[0] == req;
    if n == 1 {
      assert reqs[1..] == [];
    } else {
      assert reqs[1..] == seq(n - 1, _ => req);
      RepeatedStoredWriteIsNoOp(step.state, req, n - 1);
    }
  }

  /** From a snapshot that already stores the written value, repeated writes change nothing and send nothing. */
  lemma {:induction false} RepeatedStoredWriteIsNoOp(s: State, req: Request, n: nat)
    requires WritesStoredValue(s, req)
    ensures Run(s, seq(n, _ => req)) == Trace(s, [])
  {
    if n > 0 {
      var reqs := seq(n, _ => req);
      assert reqs[0] == req;
      assert reqs[1..] == seq(n - 1, _ => req);
      RepeatedStoredWriteIsNoOp(s, req, n - 1);
    }
  }

  /** Turning the unit on from the initial snapshot sends nothing: the target mode is still AUTO. */
  lemma PowerOnFromInitialSendsNothing()
    ensures Run(Initial, [SetActive(Active)]).sent == []
    ensures ActiveGet(Run(Initial, [SetActive(Active)]).final) == Active
  {
  }

  /** Turning the unit on and then selecting HEAT sends exactly one command: heat at the default 30 degrees. */
  lemma PowerOnThenHeat()
    ensures Run(Initial, [SetActive(Active), SetTarget(Heat)]).sent == [Command(3, 1, 30, true)]
  {
  }

  /** Selecting COOL is echoed by the current heater-cooler state. */
  lemma CoolIsEchoed()
    ensures CurrentHeaterCoolerStateGet(Run(Initial, [SetTarget(Cool)]).final) == Echo(Cool)
  {
  }

  /** Writing a cooling threshold of 19 makes the current temperature read 19. */
  lemma CoolingThresholdIsCurrentTemperature()
    ensures CurrentTemperatureGet(Run(Initial, [SetCooling(19)]).final) == 19
  {
  }

  /** With power on, COOL selected and a cooling threshold of 18, the encoder emits cool at 18 degrees. */
  lemma EncodeCoolExample()
    ensures Encode(Active, Cool, 18, 30) == Some(Command(1, 1, 18, true))
  {
  }

  /** The setters do not clamp: a cooling threshold of 40 reaches the wire unchanged. */
  lemma CoolingThresholdIsNotClamped()
    ensures var reqs := [SetActive(Active), SetTarget(Cool), SetCooling(40)];
      Run(Initial, reqs).sent == [Command(1, 1, 22, true), Command(1, 1, 40, true)]
  {
  }
}

=== FILE: wrappers.dfy ===
/** The optional-value datatype used for "maybe a command" and "maybe a name". */
module Wrappers {

  /** Some value, or nothing (JavaScript's `undefined`). */
  datatype Option<+T> = None | Some(value: T) {

    /** The zero- or one-element sequence holding this option's value. */
    function ToSeq(): (r: seq<T>)
      ensures |r| <= 1
      ensures Some? <==> |r| == 1
      ensures Some? ==> r[0] == value
    {
      match this
      case None => []
      case Some(v) => [v]
    }
  }
}
